=== FILE: README.md ===
# Kendo UI Pager — pagination arithmetic

This project models the arithmetic core of the Kendo UI `Pager` widget
(`src/kendo.pager.js`): how the widget turns its data source's state (current
page, page size, item count) into what it renders, and how user input writes
back to that state. The rendered output is abstract data, not HTML:

- `PagerState` — the data source's state, the effective page size (the data
  source's own, or the item count when it has none), the page count
  `ceil(total / pageSize)` and the reported current page (0 while empty).
- `ButtonWindow` — the numeric page list: a window of at most `buttonCount`
  numbered buttons whose start is 1 or one past a multiple of `buttonCount`,
  cut off at the last page, with "..." links to the pages just outside it and
  a selected "0" placeholder when nothing else is shown. `RenderButtons`
  builds it with the same loop as `refresh`, and is proved equal to the
  functional definition `Buttons`.
- `Navigation` — the first / previous / next / last buttons, each a target page
  and a disabled flag.
- `PageInfo` — the "Displaying items first - last of total" label, or the
  empty message.
- `Pager` — the whole output of `refresh` under the widget options, clicks
  on links, the Enter key in the page input and the page-size selector.
- `AsWritten` — `totalPages` and the next / last buttons with JavaScript's NaN,
  as the source computes them (see Findings).

The state invariant the pager keeps is `Consistent`: an empty data source, or a
page between 1 and the page count. Clicking anything the pager renders and
pressing Enter both keep it. While the data source is empty, the source
reports page 0, and Enter writes that 0 back to the data source. The model
follows the code here, so the invariant does not demand page 1 for an empty
data source.

The window width `buttonCount` must be at least 1. With 0 the source's
`page % buttonCount` is NaN, the window start becomes NaN and the list shows
only the "0" placeholder; that case is not modelled.

## Model

| member | source | states |
|---|---|---|
| PagerState.PageSize | src/kendo.pager.js:332-334 | the page size is 0 only when the data source has neither a page size nor items; a page size of 0 falls back to the item count |
| PagerState.PageCount | src/kendo.pager.js:328-330 | no pages exactly when there are no items; otherwise `count` pages of `pageSize` hold every item and `count - 1` do not, so count is ceil(total / pageSize) |
| PagerState.PageCountIsLeast | src/kendo.pager.js:328-330 | any number of pages that can hold all items is at least the page count |
| PagerState.TotalPages | src/kendo.pager.js:328-334 | 0 pages exactly when the data source is empty; otherwise ceil(total / pageSize) over the effective page size, so a non-empty data source without a page size has exactly one page |
| PagerState.CurrentPage | src/kendo.pager.js:336-347 | the getter reads 0 while the data source has no items and the data source's page otherwise |
| PagerState.CurrentPageInRange | src/kendo.pager.js:336-347 | in a consistent state the reported page is at most the page count, and it is 0 exactly when there are no items |
| ButtonWindow.WindowStart | src/kendo.pager.js:226-230 | the window starts at 1 while page is at most buttonCount; the start minus 1 is always a multiple of buttonCount; the window holds the page, including when the page is an exact multiple |
| ButtonWindow.WindowStartUnique | src/kendo.pager.js:226-230 | any aligned start whose window holds the page is the pager's start, so the window depends on the page alone |
| ButtonWindow.WindowEnd | src/kendo.pager.js:232 | the window ends at or before the last page and is buttonCount pages wide unless it is cut off at the last page, that is end = min(start + buttonCount - 1, totalPages) |
| ButtonWindow.WindowBounds | src/kendo.pager.js:226-232 | the window ends at or before the last page, spans at most buttonCount pages, is full unless it reaches the last page, and holds every existing current page |
| ButtonWindow.Buttons | src/kendo.pager.js:234-248 | the page list is never empty and holds at most buttonCount numbers plus one "..." on each side; its contents are stated by NumberedAreWindow, ShapeCounts and EllipsesAndPlaceholder |
| ButtonWindow.NumberedButtons | src/kendo.pager.js:238-240 | one button per page from `from` to `end` in order, selected exactly on the current page |
| ButtonWindow.RenderButtons | src/kendo.pager.js:226-248 | the list the source's loop builds, including the trailing link to the index the loop stopped at, equals the functional definition |
| ButtonWindow.NumberedAreWindow | src/kendo.pager.js:232-240 | the numbered buttons are exactly the pages of the window, in ascending order right after the leading link, each selected iff it is the current page, and there are at most buttonCount of them |
| ButtonWindow.ShapeCounts | src/kendo.pager.js:234-248 | the list has one numbered button per window page, one selected button iff the page is in the window, and one "..." per side that does not reach the end |
| ButtonWindow.ExactlyOneSelected | src/kendo.pager.js:238-240 | for an existing page exactly one button is selected, and it is that page's |
| ButtonWindow.EllipsesAndPlaceholder | src/kendo.pager.js:234-248 | a leading "..." to start - 1 iff start > 1; a trailing "..." to end + 1 when end < totalPages; the lone "0" placeholder iff there are no pages and the page is in the first window, and never beside other buttons |
| ButtonWindow.LinkTargetsInRange | src/kendo.pager.js:234-244 | for an existing page every "..." and numbered link leads to an existing page |
| Navigation.NavButtons | src/kendo.pager.js:40-54 | first leads to 1 and last to totalPages; on an existing page first and prev are disabled iff it is page 1, next and last iff it is the last page, and so a button is disabled iff following it stays on the page; enabled buttons lead to page 1, page - 1, page + 1 or the last page; with no pages all four are disabled while prev still leads to 1 and next to 0; on an existing page every target is a page |
| Navigation.NextThenPrev | src/kendo.pager.js:44-50 | going next then previous returns to the page |
| Navigation.PrevThenNext | src/kendo.pager.js:44-50 | going previous then next returns to the page |
| Navigation.NextReachesLast | src/kendo.pager.js:48-54 | following next from any page reaches the last page, one enabled step per page |
| PageInfo.InfoLabel | src/kendo.pager.js:252-260 | the empty message iff there are no items; otherwise a range over all `total` items |
| PageInfo.InfoRangeBounds | src/kendo.pager.js:253-257 | on an existing page the range satisfies 1 <= first <= last <= total and spans at most one page |
| PageInfo.InfoRangesTile | src/kendo.pager.js:253-257 | page 1 starts at item 1 and the last page ends at the last item, also when there is a single page; each page starts right after the previous one ends, and every page but the last shows exactly pageSize items |
| Pager.Refresh | src/kendo.pager.js:212-290 | each part is rendered iff its option is on; the page input is disabled and the label empty exactly when there are no pages; the size selector shows the pager's page size |
| Pager.EmptyPager | src/kendo.pager.js:212-285 | with the corrected page count (see Findings), an empty data source renders the lone "0", the empty message, a disabled input on page 0 of 0 and four disabled buttons |
| Pager.NonEmptyPager | src/kendo.pager.js:212-290 | a consistent non-empty data source renders exactly one selected button, its page, and at most buttonCount numbers; the label, the enabled input and the four buttons are those of the data source's page, and the label spans at most one page of real items |
| Pager.TargetsInRange | src/kendo.pager.js:226-285 | every click target the pager renders for a consistent non-empty state is an existing page |
| Pager.Click | src/kendo.pager.js:321-326 | a click makes the link's target the data source's page and leaves its page size and item count alone |
| Pager.ClickKeepsConsistent | src/kendo.pager.js:321-326 | clicking any rendered link keeps the paging state consistent |
| Pager.EnterPage | src/kendo.pager.js:292-299 | the applied page is the typed page iff the typed text is a number between 1 and the page count; anything else falls back to the current page |
| Pager.Keydown | src/kendo.pager.js:292-304 | Enter writes the applied page to the data source and leaves its page size and item count alone |
| Pager.KeydownKeepsConsistent | src/kendo.pager.js:292-304 | Enter keeps the state consistent, pressing it twice equals pressing it once, and typing the current page changes nothing |
| Pager.ChangePageSize | src/kendo.pager.js:313-319 | a parsed size is stored as the data source's page size and becomes the pager's page size (the item count for 0); an unparsable one changes nothing; page and item count are untouched |
| AsWritten.TotalPagesAsWritten | src/kendo.pager.js:328-334 | the source's page count is NaN exactly when the data source has neither a page size nor items, and agrees with the model's otherwise |
| AsWritten.NextAsWritten | src/kendo.pager.js:48-50 | with a NaN page count next is enabled and leads to NaN; with a number it is the model's next button |
| AsWritten.LastAsWritten | src/kendo.pager.js:52-54 | with a NaN page count last is enabled and leads to NaN; with a number it is the model's last button |
| AsWritten.AgreesWhenPaged | src/kendo.pager.js:48-54 | outside that case the source's next and last buttons equal the model's |
| AsWritten.EnterPageAsWritten | src/kendo.pager.js:292-299 | with a numeric page count Enter applies the model's page; with NaN every typed number from 1 up is taken, since `page > NaN` is false |
| AsWritten.EmptyUnpagedEnterAcceptsAnyPage | src/kendo.pager.js:292-303 | for an empty data source without a page size, Enter as written applies any typed page from 1 up, where the model keeps page 0 |
| AsWritten.EmptyUnpagedNavigationEnabled | src/kendo.pager.js:48-54 | for an empty data source without a page size the source's next and last buttons are enabled with target NaN, while the model disables them |

## Left out

- HTML building, templates, CSS classes and attribute writes (`button`, `icon`, `update`, the markup in `init`): the model keeps only what they render, as data.
- `init`: its DOM construction and event binding are left out. The navigation buttons it renders come from the same first / prev / next / last functions that `Pager.Refresh` uses.
- `destroy`, event binding and unbinding, `_refreshClick` with `dataSource.read()`, and the `change` event the `page` setter triggers: these are plumbing over an external event system.
- How the data source itself reacts to a new page or page size (for instance resetting the page after a size change): the data source's code is not part of this model. `Pager.ChangePageSize` therefore does not keep `Consistent`.
- `kendo.format` message text and `parseInt`: the parsed number is an `Option` input.
- The string that `_click` passes from the link's attribute is modelled as the number it holds.
- Pager.ChangePageSize: takes the parsed size as a natural number and does not model a negative number typed into the selector, because the selector offers only the configured page sizes.
- A `buttonCount` of 0: the source's remainder by 0 is NaN, which makes the window start NaN and leaves only the "0" placeholder; `Refresh` requires at least 1.
- tests/diagram/common.js and tests/spreadsheet/view.js: test scaffolding for other widgets, with floating-point geometry and DOM inspection, and no pager logic.

## Findings

| source | as written | input that shows it | evidently intended | confidence | as-written member | corrected member |
|---|---|---|---|---|---|---|
| src/kendo.pager.js:328-334 | the page size falls back to the item count, so an unpaged empty data source gives `Math.ceil(0 / 0)`, which is NaN; next and last test `page >= NaN`, which is false, so both stay enabled and lead to NaN; the page input reads "of NaN"; and Enter's test `page > NaN` is false, so any typed page from 1 up is written to the empty data source (`AsWritten.EmptyUnpagedEnterAcceptsAnyPage`) | a data source with no page size and 0 items | 0 pages: next and last disabled like first and previous, the input reading "of 0", and Enter keeping page 0 | medium; not executed | AsWritten.EmptyUnpagedNavigationEnabled | PagerState.TotalPages |

=== FILE: as_written.dfy ===
/** `totalPages` and the next / last buttons exactly as kendo.pager.js
    computes them, with JavaScript's NaN: a data source with no page size
    and no items makes the page size 0, and `Math.ceil(0 / 0)` is NaN.
    Every comparison with NaN is false and `Math.min` with NaN is NaN, so
    the next and last buttons of an empty pager come out enabled, the page
    input reads "of NaN", and Enter accepts any typed page from 1 up. The rest
    of the model uses `PagerState.TotalPages`, which gives such a pager 0
    pages. */
module AsWritten {

  import opened Wrappers
  import opened PagerState
  import opened Navigation
  import Pager

  /** The JavaScript numbers that occur here: a natural or NaN. */
  datatype JsNumber = Num(value: nat) | NaN

  datatype JsNavButton = JsNavButton(target: JsNumber, disabled: bool)

  /** `Math.ceil(total / pageSize)` with the fallback page size. */
  function TotalPagesAsWritten(ds: DataSource): (pages: JsNumber)
    ensures pages.NaN? <==> ds.pageSize == 0 && ds.total == 0
    ensures pages.Num? ==> pages.value == TotalPages(ds)
  {
    var size := PageSize(ds);
    if size == 0 then NaN else Num(PageCount(ds.total, size))
  }

  /** `page >= n`, false when `n` is NaN. */
  predicate AtLeast(page: nat, n: JsNumber)
  {
    n.Num? && page >= n.value
  }

  /** `next` with the page count as computed: with NaN it is enabled and
      leads to NaN; otherwise it is the model's button. */
  function NextAsWritten(page: nat, totalPages: JsNumber): (b: JsNavButton)
    ensures totalPages.NaN? ==> b == JsNavButton(NaN, false)
    ensures totalPages.Num? ==>
      b == JsNavButton(Num(NavButtons(page, totalPages.value).next.target), NavButtons(page, totalPages.value).next.disabled)
  {
    JsNavButton(
      if totalPages.NaN? then NaN else Num(Min(totalPages.value, page + 1)),
      AtLeast(page, totalPages))
  }

  /** `last` with the page count as computed: with NaN it is enabled and
      leads to NaN; otherwise it is the model's button. */
  function LastAsWritten(page: nat, totalPages: JsNumber): (b: JsNavButton)
    ensures totalPages.NaN? ==> b == JsNavButton(NaN, false)
    ensures totalPages.Num? ==>
      b == JsNavButton(Num(NavButtons(page, totalPages.value).last.target), NavButtons(page, totalPages.value).last.disabled)
  {
    JsNavButton(totalPages, AtLeast(page, totalPages))
  }

  /** Whenever the page size is not 0, the buttons as written agree with
      the model's. */
  lemma AgreesWhenPaged(ds: DataSource, page: nat)
    requires !(ds.pageSize == 0 && ds.total == 0)
    ensures var bar := NavButtons(page, TotalPages(ds));
            && NextAsWritten(page, TotalPagesAsWritten(ds)) == JsNavButton(Num(bar.next.target), bar.next.disabled)
            && LastAsWritten(page, TotalPagesAsWritten(ds)) == JsNavButton(Num(bar.last.target), bar.last.disabled)
  {
  }

  /** The discrepancy: for an empty data source without a page size, next
      and last are enabled and lead to NaN, where the model disables all
      four buttons. */
  lemma EmptyUnpagedNavigationEnabled(ds: DataSource)
    requires ds.pageSize == 0 && ds.total == 0
    ensures NextAsWritten(CurrentPage(ds), TotalPagesAsWritten(ds)) == JsNavButton(NaN, false)
    ensures LastAsWritten(CurrentPage(ds), TotalPagesAsWritten(ds)) == JsNavButton(NaN, false)
    ensures NavButtons(CurrentPage(ds), TotalPages(ds)).next.disabled
    ensures NavButtons(CurrentPage(ds), TotalPages(ds)).last.disabled
  {
  }

  /** The page Enter applies, with the page count as computed: the test
      `page > totalPages` is false against NaN, so with a NaN page count
      every typed number from 1 up is taken. */
  function EnterPageAsWritten(current: nat, totalPages: JsNumber, parsed: Option<int>): (applied: int)
    ensures totalPages.Num? ==> applied == Pager.EnterPage(current, totalPages.value, parsed)
    ensures totalPages.NaN? ==> (applied == current <==> parsed.None? || parsed.value < 1 || parsed.value == current)
    ensures totalPages.NaN? && parsed.Some? && parsed.value >= 1 ==> applied == parsed.value
  {
    if parsed.None? || parsed.value < 1 || (totalPages.Num? && parsed.value > totalPages.value) then current
    else parsed.value
  }

  /** The discrepancy at the input: for an empty data source without a page
      size, Enter writes any typed page from 1 up to the data source, where
      the model keeps page 0. */
  lemma EmptyUnpagedEnterAcceptsAnyPage(ds: DataSource, typed: int)
    requires ds.pageSize == 0 && ds.total == 0
    requires typed >= 1
    ensures EnterPageAsWritten(CurrentPage(ds), TotalPagesAsWritten(ds), Some(typed)) == typed
    ensures Pager.EnterPage(CurrentPage(ds), TotalPages(ds), Some(typed)) == 0
  {
  }

}

=== FILE: button_window.dfy ===
/** The numeric page list the pager renders in `refresh`: a window of at most
    `buttonCount` numbered buttons around the current page, with "..." links
    to the neighbouring windows and a "0" placeholder when there are no pages. */
module ButtonWindow {

  import opened PagerState

  /** One entry of the rendered page list. */
  datatype Button =
    | Ellipsis(target: nat)                // a "..." link to the page just outside the window
    | Numbered(page: nat, selected: bool)  // a page link, or the current page when selected
    | Placeholder                          // the selected "0" shown when nothing else is

  predicate IsNumbered(b: Button) { b.Numbered? }
  predicate IsSelected(b: Button) { b.Numbered? && b.selected }
  predicate IsEllipsis(b: Button) { b.Ellipsis? }

  /** The pages that have a numbered button in `bs`. */
  function NumberedPages(bs: seq<Button>): set<nat>
  {
    set b | b in bs && b.Numbered? :: b.page
  }

  /** Number of buttons of `bs` that satisfy `p`. */
  function Count(bs: seq<Button>, p: Button -> bool): nat
  {
    if bs == [] then 0 else (if p(bs[0]) then 1 else 0) + Count(bs[1..], p)
  }

  lemma {:induction false} CountAppend(a: seq<Button>, b: seq<Button>, p: Button -> bool)
    ensures Count(a + b, p) == Count(a, p) + Count(b, p)
  {
    if a == [] {
      assert a + b == b;
    } else {
      assert a + b != [];
      assert (a + b)[0] == a[0];
      assert (a + b)[1..] == a[1..] + b;
      CountAppend(a[1..], b, p);
    }
  }

  /** First page of the window: 1 while the page is within the first window,
      otherwise the page rounded down to just after a multiple of
      `buttonCount` (an exact multiple closes its window, it does not open one). */
  function WindowStart(page: nat, buttonCount: nat): (start: nat)
    requires buttonCount >= 1
    ensures start >= 1
    ensures page <= buttonCount ==> start == 1
    ensures (start - 1) % buttonCount == 0
    ensures page >= 1 ==> start <= page < start + buttonCount
  {
    if page > buttonCount then
      var remainder := page % buttonCount;
      RoundDownAligned(page, buttonCount);
      if remainder == 0 then page - buttonCount + 1 else page - remainder + 1
    else
      assert 0 % buttonCount == 0;
      1
  }

  /** Rounding a page past the first window down to a multiple of
      `buttonCount`, an exact multiple going one window further down,
      lands on a multiple at most `buttonCount - 1` below `page - 1`. */
  lemma RoundDownAligned(page: nat, buttonCount: nat)
    requires page > buttonCount >= 1
    ensures var remainder := page % buttonCount;
            var base := if remainder == 0 then page - buttonCount else page - remainder;
            && base % buttonCount == 0
            && base <= page - 1 < base + buttonCount
  {
    var q := page / buttonCount;
    var remainder := page % buttonCount;
    assert page == q * buttonCount + remainder;
    if remainder == 0 {
      assert page - buttonCount == (q - 1) * buttonCount;
      ModMultiple(q - 1, buttonCount);
    } else {
      assert page - remainder == q * buttonCount;
      ModMultiple(q, buttonCount);
    }
  }

  /** Last page of the window, cut off at the last page. */
  function WindowEnd(page: nat, buttonCount: nat, totalPages: nat): (end: nat)
    requires buttonCount >= 1
    ensures end <= totalPages
    ensures end < WindowStart(page, buttonCount) + buttonCount
    // The window is full unless it is cut off at the last page.
    ensures end == totalPages || end + 1 == WindowStart(page, buttonCount) + buttonCount
  {
    Min(WindowStart(page, buttonCount) + buttonCount - 1, totalPages)
  }

  /** The numbered buttons for pages `from` to `end`, the one for `page` selected. */
  function NumberedButtons(from: nat, end: nat, page: nat): (bs: seq<Button>)
    decreases end + 1 - from
    ensures |bs| == if end < from then 0 else end + 1 - from
    ensures forall k :: 0 <= k < |bs| ==> bs[k] == Numbered(from + k, from + k == page)
  {
    if end < from then [] else [Numbered(from, from == page)] + NumberedButtons(from + 1, end, page)
  }

  /** The page list of `refresh` for the given page, window width and page count. */
  function Buttons(page: nat, buttonCount: nat, totalPages: nat): (bs: seq<Button>)
    requires buttonCount >= 1
    // Never empty; at most the window's numbers and one "..." on each side.
    ensures 1 <= |bs| <= buttonCount + 2
  {
    var start := WindowStart(page, buttonCount);
    var end := WindowEnd(page, buttonCount, totalPages);
    var html := Leading(start) + NumberedButtons(start, end, page) + Trailing(end, totalPages);
    if html == [] then [Placeholder] else html
  }

  function Leading(start: nat): seq<Button>
  {
    if start > 1 then [Ellipsis(start - 1)] else []
  }

  function Trailing(end: nat, totalPages: nat): seq<Button>
  {
    if end < totalPages then [Ellipsis(end + 1)] else []
  }

  /** The list built the way `refresh` builds it: the leading link, then one
      button per page while the index has not passed the end, then a trailing
      link to the index the loop stopped at. */
  method RenderButtons(page: nat, buttonCount: nat, totalPages: nat) returns (html: seq<Button>)
    requires buttonCount >= 1
    ensures html == Buttons(page, buttonCount, totalPages)
  {
    var start := WindowStart(page, buttonCount);
    var end := WindowEnd(page, buttonCount, totalPages);
    html := [];
    if start > 1 {
      html := html + [Ellipsis(start - 1)];
    }
    var idx := start;
    while idx <= end
      invariant start <= idx
      invariant end >= start ==> idx <= end + 1
      invariant end < start ==> idx == start
      invariant html == Leading(start) + NumberedButtons(start, idx - 1, page)
    {
      NumberedSnoc(start, idx, page);
      html := html + [Numbered(idx, idx == page)];
      idx := idx + 1;
    }
    if end < start {
      assert NumberedButtons(start, idx - 1, page) == [] == NumberedButtons(start, end, page);
    } else {
      assert idx == end + 1;
    }
    if end < totalPages {
      assert end == start + buttonCount - 1;
      html := html + [Ellipsis(idx)];
    }
    if html == [] {
      html := [Placeholder];
    }
  }

  lemma NumberedSnoc(from: nat, end: nat, page: nat)
    requires 1 <= from <= end
    ensures NumberedButtons(from, end, page)
         == NumberedButtons(from, end - 1, page) + [Numbered(end, end == page)]
  {
    var a := NumberedButtons(from, end, page);
    var b := NumberedButtons(from, end - 1, page) + [Numbered(end, end == page)];
    assert |a| == |b|;
    forall k | 0 <= k < |a| ensures a[k] == b[k] {
    }
  }

  lemma ModMultiple(q: nat, d: nat)
    requires d >= 1
    ensures (q * d) % d == 0
  {
    DivUnique(q * d, d, q, 0);
  }

  lemma DivUnique(x: int, d: int, q: int, r: int)
    requires d > 0 && 0 <= r < d && x == q * d + r
    ensures x / d == q && x % d == r
  {
    var q' := x / d;
    var r' := x % d;
    assert x == q' * d + r';
    if q' < q {
      MulAtLeastOnce(q - q', d);
      assert false;
    } else if q' > q {
      MulAtLeastOnce(q' - q, d);
      assert false;
    }
  }

  lemma MulAtLeastOnce(k: int, d: int)
    requires k >= 1 && d > 0
    ensures k * d >= d
  {
    assert k * d == d + (k - 1) * d;
  }

  /** The window is the block [k * buttonCount + 1, (k + 1) * buttonCount]
      that holds the page, so it is determined by the page alone: any start
      just after a multiple of `buttonCount` whose window holds the page is
      the pager's start. */
  lemma {:induction false} WindowStartUnique(page: nat, buttonCount: nat, start: nat)
    requires buttonCount >= 1
    requires 1 <= start && (start - 1) % buttonCount == 0
    requires start <= page < start + buttonCount
    ensures WindowStart(page, buttonCount) == start
  {
    var w := WindowStart(page, buttonCount);
    var k := (start - 1) / buttonCount;
    var j := (w - 1) / buttonCount;
    assert start - 1 == k * buttonCount;
    assert w - 1 == j * buttonCount;
    DivUnique(page - 1, buttonCount, k, page - start);
    DivUnique(page - 1, buttonCount, j, page - w);
  }

  /** The window facts in one place: it never exceeds the pages, holds at
      most `buttonCount` pages and is full unless cut off at the last page
      (as `WindowEnd` states), and it holds the current page whenever that
      page exists. */
  lemma WindowBounds(page: nat, buttonCount: nat, totalPages: nat)
    requires buttonCount >= 1
    ensures WindowEnd(page, buttonCount, totalPages) <= totalPages
    ensures WindowEnd(page, buttonCount, totalPages) + 1 - WindowStart(page, buttonCount) <= buttonCount
    ensures WindowEnd(page, buttonCount, totalPages) == totalPages
         || WindowEnd(page, buttonCount, totalPages) + 1 - WindowStart(page, buttonCount) == buttonCount
    ensures 1 <= page <= totalPages ==>
      WindowStart(page, buttonCount) <= page <= WindowEnd(page, buttonCount, totalPages)
  {
  }

  /** The numbered buttons are exactly the pages of the window, in
      ascending order right after the leading link, the current page
      selected; so there are at most `buttonCount`. */
  lemma NumberedAreWindow(page: nat, buttonCount: nat, totalPages: nat)
    requires buttonCount >= 1
    ensures forall b :: b in Buttons(page, buttonCount, totalPages) && b.Numbered? ==>
      WindowStart(page, buttonCount) <= b.page <= WindowEnd(page, buttonCount, totalPages)
      && (b.selected <==> b.page == page)
    ensures forall p :: p in NumberedPages(Buttons(page, buttonCount, totalPages)) <==>
      WindowStart(page, buttonCount) <= p <= WindowEnd(page, buttonCount, totalPages)
    ensures Count(Buttons(page, buttonCount, totalPages), IsNumbered) <= buttonCount
    ensures var start := WindowStart(page, buttonCount);
            var nums := NumberedButtons(start, WindowEnd(page, buttonCount, totalPages), page);
            forall k :: 0 <= k < |nums| ==>
              |Leading(start)| + k < |Buttons(page, buttonCount, totalPages)|
              && Buttons(page, buttonCount, totalPages)[|Leading(start)| + k] == nums[k]
  {
    var start := WindowStart(page, buttonCount);
    var end := WindowEnd(page, buttonCount, totalPages);
    var bs := Buttons(page, buttonCount, totalPages);
    var nums := NumberedButtons(start, end, page);
    if nums != [] {
      assert bs == Leading(start) + nums + Trailing(end, totalPages);
    }
    forall p: nat | start <= p <= end
      ensures p in NumberedPages(bs)
    {
      NumberedInList(page, buttonCount, totalPages, p);
      assert Numbered(p, p == page) in bs;
    }
    forall p | p in NumberedPages(bs)
      ensures start <= p <= end
    {
      var b :| b in bs && b.Numbered? && b.page == p;
    }
    ShapeCounts(page, buttonCount, totalPages);
  }

  lemma NumberedInList(page: nat, buttonCount: nat, totalPages: nat, p: nat)
    requires buttonCount >= 1
    requires WindowStart(page, buttonCount) <= p <= WindowEnd(page, buttonCount, totalPages)
    ensures Numbered(p, p == page) in Buttons(page, buttonCount, totalPages)
  {
    var start := WindowStart(page, buttonCount);
    var end := WindowEnd(page, buttonCount, totalPages);
    var nums := NumberedButtons(start, end, page);
    var bs := Buttons(page, buttonCount, totalPages);
    assert nums[p - start] == Numbered(p, p == page);
    assert bs == Leading(start) + nums + Trailing(end, totalPages);
    assert bs[|Leading(start)| + (p - start)] == Numbered(p, p == page);
  }

  lemma {:induction false} CountNumberedButtons(from: nat, end: nat, page: nat)
    ensures Count(NumberedButtons(from, end, page), IsNumbered) == |NumberedButtons(from, end, page)|
    ensures Count(NumberedButtons(from, end, page), IsEllipsis) == 0
    ensures Count(NumberedButtons(from, end, page), IsSelected)
         == if from <= page <= end then 1 else 0
    decreases end + 1 - from
  {
    if from <= end {
      var bs := NumberedButtons(from, end, page);
      assert bs[1..] == NumberedButtons(from + 1, end, page);
      CountNumberedButtons(from + 1, end, page);
    }
  }

  /** How many numbered, selected and "..." buttons the list holds. */
  lemma ShapeCounts(page: nat, buttonCount: nat, totalPages: nat)
    requires buttonCount >= 1
    ensures var start := WindowStart(page, buttonCount);
            var end := WindowEnd(page, buttonCount, totalPages);
            var bs := Buttons(page, buttonCount, totalPages);
            && Count(bs, IsNumbered) == (if end < start then 0 else end + 1 - start)
            && Count(bs, IsSelected) == (if start <= page <= end then 1 else 0)
            && Count(bs, IsEllipsis) == (if start > 1 then 1 else 0) + (if end < totalPages then 1 else 0)
  {
    var start := WindowStart(page, buttonCount);
    var end := WindowEnd(page, buttonCount, totalPages);
    var nums := NumberedButtons(start, end, page);
    var html := Leading(start) + nums + Trailing(end, totalPages);
    CountNumberedButtons(start, end, page);
    CountAppend(Leading(start), nums, IsNumbered);
    CountAppend(Leading(start) + nums, Trailing(end, totalPages), IsNumbered);
    CountAppend(Leading(start), nums, IsSelected);
    CountAppend(Leading(start) + nums, Trailing(end, totalPages), IsSelected);
    CountAppend(Leading(start), nums, IsEllipsis);
    CountAppend(Leading(start) + nums, Trailing(end, totalPages), IsEllipsis);
    if html == [] {
      assert Buttons(page, buttonCount, totalPages) == [Placeholder];
    }
  }

  /** When the page exists, exactly one button is the selected one, and it
      is the current page. */
  lemma ExactlyOneSelected(page: nat, buttonCount: nat, totalPages: nat)
    requires buttonCount >= 1
    requires 1 <= page <= totalPages
    ensures Count(Buttons(page, buttonCount, totalPages), IsSelected) == 1
    ensures Numbered(page, true) in Buttons(page, buttonCount, totalPages)
  {
    WindowBounds(page, buttonCount, totalPages);
    ShapeCounts(page, buttonCount, totalPages);
    NumberedInList(page, buttonCount, totalPages, page);
  }

  /** A leading "..." to the page before the window appears exactly when the
      window does not start at 1; a trailing "..." to the page after it
      appears exactly when the window ends before the last page; the "0"
      placeholder appears, alone, exactly when there are no pages and the
      page is in the first window. */
  lemma EllipsesAndPlaceholder(page: nat, buttonCount: nat, totalPages: nat)
    requires buttonCount >= 1
    ensures var start := WindowStart(page, buttonCount);
            var end := WindowEnd(page, buttonCount, totalPages);
            var bs := Buttons(page, buttonCount, totalPages);
            && |bs| >= 1
            && (bs[0].Ellipsis? <==> start > 1)
            && (start > 1 ==> bs[0] == Ellipsis(start - 1))
            && (end < totalPages ==> |bs| >= 2 && bs[|bs| - 1] == Ellipsis(end + 1))
            && (bs == [Placeholder] <==> totalPages == 0 && page <= buttonCount)
            && (Placeholder in bs ==> bs == [Placeholder])
  {
    var start := WindowStart(page, buttonCount);
    var end := WindowEnd(page, buttonCount, totalPages);
    var nums := NumberedButtons(start, end, page);
    var html := Leading(start) + nums + Trailing(end, totalPages);
    var bs := Buttons(page, buttonCount, totalPages);
    if end < totalPages {
      assert end == start + buttonCount - 1;
      assert |nums| >= 1;
    }
    if html != [] {
      assert bs == html;
      assert Placeholder !in html by {
        forall i | 0 <= i < |html| ensures html[i] != Placeholder {
          if i < |Leading(start)| {
          } else if i < |Leading(start)| + |nums| {
            assert html[i] == nums[i - |Leading(start)|];
          } else {
          }
        }
      }
      if start <= 1 && |nums| > 0 {
        assert bs[0] == nums[0];
      }
    }
  }

  /** When the page exists, every link in the list leads to an existing page. */
  lemma LinkTargetsInRange(page: nat, buttonCount: nat, totalPages: nat)
    requires buttonCount >= 1
    requires 1 <= page <= totalPages
    ensures forall b :: b in Buttons(page, buttonCount, totalPages) && b.Ellipsis? ==>
      1 <= b.target <= totalPages
    ensures forall b :: b in Buttons(page, buttonCount, totalPages) && b.Numbered? ==>
      1 <= b.page <= totalPages
  {
    var start := WindowStart(page, buttonCount);
    var end := WindowEnd(page, buttonCount, totalPages);
    var nums := NumberedButtons(start, end, page);
    var bs := Buttons(page, buttonCount, totalPages);
    WindowBounds(page, buttonCount, totalPages);
    NumberedAreWindow(page, buttonCount, totalPages);
    assert bs == Leading(start) + nums + Trailing(end, totalPages);
    forall b | b in bs && b.Ellipsis? ensures 1 <= b.target <= totalPages {
      assert b in Leading(start) || b in nums || b in Trailing(end, totalPages);
      assert b !in nums;
    }
  }

}

=== FILE: navigation.dfy ===
/** The first / previous / next / last buttons: each carries the page it
    leads to and whether it is disabled (kendo.pager.js, `first`, `prev`,
    `next`, `last`). */
module Navigation {

  import opened PagerState

  datatype NavButton = NavButton(target: nat, disabled: bool)

  datatype NavBar = NavBar(first: NavButton, prev: NavButton, next: NavButton, last: NavButton)

  /** The four buttons for the current page and page count. */
  function NavButtons(page: nat, totalPages: nat): (bar: NavBar)
    // First always leads to page 1 and last to the last page.
    ensures bar.first.target == 1 && bar.last.target == totalPages
    // Within the pages, first and previous are disabled exactly on the first
    // page, next and last exactly on the last page.
    ensures 1 <= page <= totalPages ==>
      && (bar.first.disabled <==> page == 1)
      && (bar.prev.disabled <==> page == 1)
      && (bar.next.disabled <==> page == totalPages)
      && (bar.last.disabled <==> page == totalPages)
    // Within the pages, a button is disabled exactly when following it
    // would leave the page unchanged.
    ensures 1 <= page <= totalPages ==>
      && (bar.first.disabled <==> bar.first.target == page)
      && (bar.prev.disabled <==> bar.prev.target == page)
      && (bar.next.disabled <==> bar.next.target == page)
      && (bar.last.disabled <==> bar.last.target == page)
    // An enabled button leads to an existing page: back by one or to the
    // first page, forward by one or to the last page.
    ensures page <= totalPages ==>
      && (!bar.first.disabled ==> bar.first.target == 1 < page)
      && (!bar.prev.disabled ==> 1 <= bar.prev.target == page - 1)
      && (!bar.next.disabled ==> page < bar.next.target == page + 1 <= totalPages)
      && (!bar.last.disabled ==> page < bar.last.target == totalPages)
    // Without pages every button is disabled; the links still carry their
    // targets, 1 for first and previous, 0 for next and last.
    ensures totalPages == 0 && page <= 1 ==>
      bar.first.disabled && bar.prev.disabled && bar.next.disabled && bar.last.disabled
    ensures totalPages == 0 && page == 0 ==>
      bar.prev.target == 1 && bar.next.target == 0
    // Every target is a page whenever the current page is one.
    ensures 1 <= page <= totalPages ==>
      && 1 <= bar.prev.target <= totalPages
      && 1 <= bar.next.target <= totalPages
      && 1 <= bar.last.target <= totalPages
  {
    NavBar(
      NavButton(1, page <= 1),
      NavButton(Max(1, page - 1), page <= 1),
      NavButton(Min(totalPages, page + 1), page >= totalPages),
      NavButton(totalPages, page >= totalPages))
  }

  /** Going forward then back returns to the page. */
  lemma NextThenPrev(page: nat, totalPages: nat)
    requires 1 <= page < totalPages
    ensures !NavButtons(page, totalPages).next.disabled
    ensures var there := NavButtons(page, totalPages).next.target;
            !NavButtons(there, totalPages).prev.disabled
            && NavButtons(there, totalPages).prev.target == page
  {
  }

  /** Going back then forward returns to the page. */
  lemma PrevThenNext(page: nat, totalPages: nat)
    requires 1 < page <= totalPages
    ensures !NavButtons(page, totalPages).prev.disabled
    ensures var there := NavButtons(page, totalPages).prev.target;
            !NavButtons(there, totalPages).next.disabled
            && NavButtons(there, totalPages).next.target == page
  {
  }

  /** Following "next" from any page reaches the last page after exactly
      `totalPages - page` steps, each step enabled. */
  lemma {:induction false} NextReachesLast(page: nat, totalPages: nat)
    requires 1 <= page <= totalPages
    ensures FollowNext(page, totalPages, totalPages - page) == totalPages
    decreases totalPages - page
  {
    if page < totalPages {
      NextReachesLast(page + 1, totalPages);
    }
  }

  /** The page reached by following "next" `steps` times while it is enabled. */
  function FollowNext(page: nat, totalPages: nat, steps: nat): nat
    decreases steps
  {
    var next := NavButtons(page, totalPages).next;
    if steps == 0 || next.disabled then page else FollowNext(next.target, totalPages, steps - 1)
  }

}

=== FILE: page_info.dfy ===
/** The info label of `refresh`: the range of items shown on the current
    page, or the empty message. */
module PageInfo {

  import PagerState

  /** `Range(first, last, total)` stands for "Displaying items first - last
      of total"; `Empty` for "No items to display". */
  datatype Info = Empty | Range(first: int, last: int, total: nat)

  function InfoLabel(page: nat, pageSize: nat, total: nat): (info: Info)
    ensures info.Empty? <==> total == 0
    ensures info.Range? ==> info.total == total
  {
    if total > 0 then
      Range((page - 1) * pageSize + 1, PagerState.Min(page * pageSize, total), total)
    else Empty
  }

  /** On an existing page the label shows a non-empty range of real items,
      no longer than a page. */
  lemma InfoRangeBounds(page: nat, pageSize: nat, total: nat)
    requires pageSize > 0 && total > 0
    requires 1 <= page <= PagerState.PageCount(total, pageSize)
    ensures var info := InfoLabel(page, pageSize, total);
            && 1 <= info.first <= info.last <= total
            && info.last - info.first + 1 <= pageSize
  {
    var count := PagerState.PageCount(total, pageSize);
    PagerState.MulMonotonic(page - 1, count - 1, pageSize);
    assert page * pageSize == (page - 1) * pageSize + pageSize;
  }

  /** The ranges of consecutive pages follow each other without gap or
      overlap, from item 1 on the first page to the last item on the last
      page, and every page but the last is full: together the pages show
      every item exactly once, a page at a time. */
  lemma InfoRangesTile(page: nat, pageSize: nat, total: nat)
    requires pageSize > 0 && total > 0
    requires 1 <= page <= PagerState.PageCount(total, pageSize)
    ensures InfoLabel(1, pageSize, total).first == 1
    ensures InfoLabel(PagerState.PageCount(total, pageSize), pageSize, total).last == total
    ensures page < PagerState.PageCount(total, pageSize) ==>
      InfoLabel(page + 1, pageSize, total).first == InfoLabel(page, pageSize, total).last + 1
    ensures page < PagerState.PageCount(total, pageSize) ==>
      InfoLabel(page, pageSize, total).last - InfoLabel(page, pageSize, total).first + 1 == pageSize
  {
    var count := PagerState.PageCount(total, pageSize);
    if page < count {
      PagerState.MulMonotonic(page, count - 1, pageSize);
      assert (page + 1 - 1) * pageSize == page * pageSize;
    }
  }

}

=== FILE: pager.dfy ===
/** The Pager widget's observable behaviour: what `refresh` renders from the
    data source's state, and how clicks, the Enter key in the page input and
    the page-size selector write back to that state (kendo.pager.js). */
module Pager {

  import opened Wrappers
  import opened PagerState
  import opened ButtonWindow
  import opened Navigation
  import opened PageInfo

  /** The widget options that shape the rendered output. */
  datatype Options = Options(buttonCount: nat, info: bool, input: bool, previousNext: bool, pageSizes: bool)

  /** The page input: the page it shows, the page count in its "of N" text,
      and whether it is disabled. */
  datatype PageInput = PageInput(value: nat, of: nat, disabled: bool)

  /** Everything `refresh` renders, as data; a part whose option is off is `None`. */
  datatype View = View(
    buttons: seq<Button>,
    info: Option<Info>,
    input: Option<PageInput>,
    nav: Option<NavBar>,
    pageSizeValue: Option<nat>)

  /** The output of `refresh` for the data source's state. */
  function Refresh(ds: DataSource, opts: Options): (v: View)
    requires opts.buttonCount >= 1
    ensures v.info.Some? <==> opts.info
    ensures v.input.Some? <==> opts.input
    ensures v.nav.Some? <==> opts.previousNext
    ensures v.pageSizeValue.Some? <==> opts.pageSizes
    // The size selector shows the page size the pager works with.
    ensures v.pageSizeValue.Some? ==> v.pageSizeValue.value == PageSize(ds)
    // The input is usable exactly when there is a page to type.
    ensures v.input.Some? ==> (v.input.value.disabled <==> TotalPages(ds) == 0)
    ensures v.info.Some? ==> (v.info.value.Empty? <==> TotalPages(ds) == 0)
  {
    var page := CurrentPage(ds);
    var pageSize := PageSize(ds);
    var totalPages := TotalPages(ds);
    View(
      Buttons(page, opts.buttonCount, totalPages),
      if opts.info then Some(InfoLabel(page, pageSize, ds.total)) else None,
      if opts.input then Some(PageInput(page, totalPages, ds.total < 1)) else None,
      if opts.previousNext then Some(NavButtons(page, totalPages)) else None,
      if opts.pageSizes then Some(pageSize) else None)
  }

  /** An empty data source renders the lone "0" placeholder, the empty
      message, a disabled input and four disabled buttons. */
  lemma EmptyPager(ds: DataSource, opts: Options)
    requires opts.buttonCount >= 1
    requires ds.total == 0
    ensures var v := Refresh(ds, opts);
            && v.buttons == [Placeholder]
            && (v.info.Some? ==> v.info.value == Empty)
            && (v.input.Some? ==> v.input.value == PageInput(0, 0, true))
            && (v.nav.Some? ==>
                  v.nav.value.first.disabled && v.nav.value.prev.disabled
                  && v.nav.value.next.disabled && v.nav.value.last.disabled)
  {
    EllipsesAndPlaceholder(0, opts.buttonCount, 0);
  }

  /** On a non-empty data source the current page is the selected button,
      the label, the input and the four buttons are those of the data
      source's page, and the label shows a range of at most one page of
      real items. */
  lemma NonEmptyPager(ds: DataSource, opts: Options)
    requires opts.buttonCount >= 1
    requires ds.total > 0 && Consistent(ds)
    ensures var v := Refresh(ds, opts);
            && Count(v.buttons, IsSelected) == 1
            && Numbered(ds.page, true) in v.buttons
            && Count(v.buttons, IsNumbered) <= opts.buttonCount
            && (v.info.Some? ==> v.info.value == InfoLabel(ds.page, PageSize(ds), ds.total))
            && (v.input.Some? ==> v.input.value == PageInput(ds.page, TotalPages(ds), false))
            && (v.nav.Some? ==> v.nav.value == NavButtons(ds.page, TotalPages(ds)))
            && (v.info.Some? ==>
                  1 <= v.info.value.first <= v.info.value.last <= ds.total
                  && v.info.value.last - v.info.value.first + 1 <= PageSize(ds))
  {
    var totalPages := TotalPages(ds);
    ExactlyOneSelected(ds.page, opts.buttonCount, totalPages);
    NumberedAreWindow(ds.page, opts.buttonCount, totalPages);
    InfoRangeBounds(ds.page, PageSize(ds), ds.total);
  }

  /** The pages a click on the rendered output can lead to: the "..." links,
      the unselected numbered links and the four buttons. The click handler
      is bound to every link, so a disabled button's target is included. */
  function Targets(v: View): set<nat>
  {
    LinkTargets(v.buttons) + (if v.nav.Some? then NavTargets(v.nav.value) else {})
  }

  function LinkTargets(bs: seq<Button>): set<nat>
  {
    (set b | b in bs && b.Ellipsis? :: b.target)
    + (set b | b in bs && b.Numbered? && !b.selected :: b.page)
  }

  function NavTargets(bar: NavBar): set<nat>
  {
    {bar.first.target, bar.prev.target, bar.next.target, bar.last.target}
  }

  /** A click sets the data source's page to the link's target. */
  function Click(ds: DataSource, target: nat): (ds': DataSource)
    ensures ds'.page == target
    ensures ds'.pageSize == ds.pageSize && ds'.total == ds.total
  {
    ds.(page := target)
  }

  lemma LinkTargetsBounded(bs: seq<Button>, totalPages: nat)
    requires forall b :: b in bs && b.Ellipsis? ==> 1 <= b.target <= totalPages
    requires forall b :: b in bs && b.Numbered? ==> 1 <= b.page <= totalPages
    ensures forall t :: t in LinkTargets(bs) ==> 1 <= t <= totalPages
  {
    forall t | t in LinkTargets(bs) ensures 1 <= t <= totalPages {
      if t in (set b | b in bs && b.Ellipsis? :: b.target) {
        var b :| b in bs && b.Ellipsis? && b.target == t;
      } else {
        var b :| b in bs && b.Numbered? && !b.selected && b.page == t;
      }
    }
  }

  /** Every click target of a consistent, non-empty state is an existing page. */
  lemma TargetsInRange(ds: DataSource, opts: Options)
    requires opts.buttonCount >= 1
    requires ds.total > 0 && Consistent(ds)
    ensures forall t :: t in Targets(Refresh(ds, opts)) ==> 1 <= t <= TotalPages(ds)
  {
    var v := Refresh(ds, opts);
    var totalPages := TotalPages(ds);
    assert v.buttons == Buttons(ds.page, opts.buttonCount, totalPages);
    LinkTargetsInRange(ds.page, opts.buttonCount, totalPages);
    LinkTargetsBounded(v.buttons, totalPages);
    if v.nav.Some? {
      assert v.nav.value == NavButtons(ds.page, totalPages);
    }
  }

  /** Clicking anything the pager renders keeps the paging state consistent. */
  lemma ClickKeepsConsistent(ds: DataSource, opts: Options)
    requires opts.buttonCount >= 1
    requires Consistent(ds)
    ensures forall t :: t in Targets(Refresh(ds, opts)) ==> Consistent(Click(ds, t))
  {
    if ds.total > 0 {
      TargetsInRange(ds, opts);
    }
  }

  /** The page Enter applies for the parsed input text (`None` when it is
      not a number): a page that exists is taken as typed, anything else
      falls back to the current page. */
  function EnterPage(current: nat, totalPages: nat, parsed: Option<int>): (applied: nat)
    ensures 1 <= applied <= totalPages || applied == current
    ensures parsed.Some? && 1 <= parsed.value <= totalPages <==> parsed == Some(applied) && applied >= 1 && applied <= totalPages
    ensures !(parsed.Some? && 1 <= parsed.value <= totalPages) ==> applied == current
  {
    if parsed.None? || parsed.value < 1 || parsed.value > totalPages then current else parsed.value
  }

  /** Enter in the page input writes the applied page to the data source. */
  function Keydown(ds: DataSource, parsed: Option<int>): (ds': DataSource)
    ensures ds'.pageSize == ds.pageSize && ds'.total == ds.total
    ensures ds'.page == EnterPage(CurrentPage(ds), TotalPages(ds), parsed)
  {
    ds.(page := EnterPage(CurrentPage(ds), TotalPages(ds), parsed))
  }

  /** Enter keeps the paging state consistent, pressing it twice is the same
      as pressing it once, and typing the current page changes nothing. */
  lemma KeydownKeepsConsistent(ds: DataSource, parsed: Option<int>)
    requires Consistent(ds)
    ensures Consistent(Keydown(ds, parsed))
    ensures Keydown(Keydown(ds, parsed), parsed) == Keydown(ds, parsed)
    ensures ds.total > 0 ==> Keydown(ds, Some(ds.page)) == ds
  {
  }

  /** A new page size from the selector is applied only when it parses as a
      number; the pager then works with it. */
  function ChangePageSize(ds: DataSource, parsed: Option<nat>): (ds': DataSource)
    ensures ds'.page == ds.page && ds'.total == ds.total
    ensures parsed.None? ==> ds' == ds
    ensures parsed.Some? ==> ds'.pageSize == parsed.value
    ensures parsed.Some? && parsed.value > 0 ==> PageSize(ds') == parsed.value
    ensures parsed.Some? && parsed.value == 0 ==> PageSize(ds') == ds.total
  {
    if parsed.Some? then ds.(pageSize := parsed.value) else ds
  }

}

=== FILE: pager_state.dfy ===
/** The paging state the pager reads from its data source, and the page
    arithmetic the pager derives from it (kendo.pager.js, `pageSize`,
    `totalPages` and the `page` getter). */
module PagerState {

  function Max(a: int, b: int): int { if a >= b then a else b }
  function Min(a: int, b: int): int { if a <= b then a else b }

  /** The state owned by the external data source: its 1-based current page,
      its configured page size (0 when the data source does not page) and its
      item count. */
  datatype DataSource = DataSource(page: nat, pageSize: nat, total: nat)

  /** The page size the pager works with: the data source's own, or the item
      count when the data source has none. */
  function PageSize(ds: DataSource): (size: nat)
    ensures size == 0 <==> ds.pageSize == 0 && ds.total == 0
    ensures ds.pageSize > 0 ==> size == ds.pageSize
    ensures ds.pageSize == 0 ==> size == ds.total
  {
    if ds.pageSize != 0 then ds.pageSize else ds.total
  }

  /** Number of pages of `pageSize` items needed to hold `total` items, that is
      ceil(total / pageSize); an empty collection has no pages. */
  function PageCount(total: nat, pageSize: nat): (count: nat)
    requires pageSize > 0 || total == 0
    ensures count == 0 <==> total == 0
    ensures total > 0 ==> (count - 1) * pageSize < total <= count * pageSize
  {
    if total == 0 then 0
    else
      CeilDivBounds(total, pageSize);
      (total + pageSize - 1) / pageSize
  }

  lemma CeilDivBounds(n: nat, d: nat)
    requires n > 0 && d > 0
    ensures (n + d - 1) / d >= 1
    ensures ((n + d - 1) / d - 1) * d < n <= ((n + d - 1) / d) * d
  {
    var q := (n + d - 1) / d;
    var r := (n + d - 1) % d;
    assert n + d - 1 == q * d + r;
    assert (q - 1) * d == q * d - d;
  }

  /** `PageCount` is the least number of pages that can hold every item. */
  lemma {:induction false} PageCountIsLeast(total: nat, pageSize: nat, pages: nat)
    requires pageSize > 0
    requires total <= pages * pageSize
    ensures PageCount(total, pageSize) <= pages
  {
    var count := PageCount(total, pageSize);
    if count > pages {
      MulMonotonic(pages, count - 1, pageSize);
      assert false;
    }
  }

  lemma MulMonotonic(a: nat, b: nat, c: nat)
    requires a <= b
    ensures a * c <= b * c
  {
    assert b * c == a * c + (b - a) * c;
  }

  /** The pager's total page count. */
  function TotalPages(ds: DataSource): (pages: nat)
    ensures pages == 0 <==> ds.total == 0
    ensures ds.total > 0 ==> (pages - 1) * PageSize(ds) < ds.total <= pages * PageSize(ds)
    ensures ds.pageSize == 0 && ds.total > 0 ==> pages == 1
  {
    var size := PageSize(ds);
    var count := PageCount(ds.total, size);
    if ds.pageSize == 0 && ds.total > 0 then
      assert (count - 1) * ds.total < ds.total;
      SingleFactor(count, ds.total);
      count
    else count
  }

  lemma SingleFactor(count: nat, n: nat)
    requires n > 0 && count >= 1
    requires (count - 1) * n < n
    ensures count == 1
  {
    if count > 1 {
      MulMonotonic(1, count - 1, n);
    }
  }

  /** The page the pager reports: 0 while the data source is empty, the data
      source's page otherwise. */
  function CurrentPage(ds: DataSource): (page: nat)
    ensures ds.total == 0 ==> page == 0
    ensures ds.total > 0 ==> page == ds.page
  {
    if ds.total > 0 then ds.page else 0
  }

  /** The paging state the pager keeps up: a non-empty data source is on one
      of its pages. */
  predicate Consistent(ds: DataSource)
  {
    ds.total == 0 || 1 <= ds.page <= TotalPages(ds)
  }

  /** In a consistent state the reported page is a real page, and it is 0
      exactly when there are no pages. */
  lemma CurrentPageInRange(ds: DataSource)
    requires Consistent(ds)
    ensures CurrentPage(ds) <= TotalPages(ds)
    ensures CurrentPage(ds) == 0 <==> TotalPages(ds) == 0
    ensures CurrentPage(ds) == 0 <==> ds.total == 0
  {
  }

}

=== FILE: wrappers.dfy ===
/** The optional value used for parse results and for parts of the pager
    that its options may switch off. */
module Wrappers {

  datatype Option<+T> = None | Some(value: T)

}
